=== FILE: README.md ===
# PoseNet overlay: keypoint decoder and skeleton renderer

A Dafny model of the per-frame logic of a Unity pose-estimation overlay. A
pose network produces two tensors for each video frame:

- a heatmap channel for each of 17 joints;
- two offset channels for each joint.

The model covers three parts of the C# code.

- **Keypoint decoder** (`ProcessResults` and `LocateKeyPoint` in
  `PoseDetection.cs`). For each joint it scans the heatmap channel in raster
  order, outer loop over rows, and keeps the first strictly greater value
  above a running maximum that starts at 0. It then reads the offset vector
  at the winning cell: x from channel `i + 17`, y from channel `i`.
  - It computes an integer stride. This is `(imageHeight - 1) / (heatmapHeight - 1)`
    with C#'s truncating division, minus its remainder modulo 8.
  - It rebuilds the model-input coordinate with a vertical flip.
  - It rescales that coordinate into the video frame, stretching the axis
    along the longer frame side by the frame's aspect ratio.
- **Confidence gate** (the `DrawSkeleton` method of `PoseDetection.cs`).
  Marker `k` is active iff its confidence is at least `minConfidence / 100`.
  It is moved to `(x_k, y_k, -1)` either way.
- **Skeleton renderer** (`DrawSkeleton.cs`).
  - `Start` sizes the pair and line arrays to `keypoints.Length + 1`.
  - `InitializeSkeleton` fills slots 0..17 from a fixed bone table:
    - face bones are red, torso bones magenta, arm bones blue and leg bones
      green;
    - every bone has width 5.
  - `RenderSkeleton` shows line `i` between its two keypoints when both are
    active. Otherwise it hides the line and keeps its endpoints.

Modules:

- `Faults` holds the exceptions the code can raise and a `Result` type, so
  that faulting paths are values rather than preconditions.
- `Scene` holds the engine objects as plain data: `Vec3` and `KeypointObject`.
- `PoseDetection` holds the decoder and the gate.
- `SkeletonRenderer` holds the bone table, start-up and the render pass.
- `Pipeline` composes one frame (`Frame`) and works through a concrete frame.

Floats are modelled as `real` and the stride as `int`. C#'s integer `/`
truncates toward zero. The stride is a `float` holding an integral value,
and C#'s float `%` on it truncates the same way. The model writes both out
explicitly (`TruncDiv`, `TruncRem`). With the detector's default 480-pixel
input, a 61-row heatmap gives stride 0 (479 / 60 = 7 rounds down to 0),
while a 31-row heatmap gives stride 8 (`StrideOfDefaultInput`).

Faults are modelled where the code raises them:

- A heatmap of height 1 makes the stride divide by zero. The detector's
  update then aborts before any marker moves.
- A renderer started with fewer than 17 keypoint objects faults in a table
  call.
- A renderer started with more than 17 keypoint objects leaves slots past 17
  null. A pass updates the lines before the first null slot and then faults.
- A marker array shorter than 17 makes the gate fault after updating the
  markers that exist.

A joint whose heatmap channel has no positive cell decodes to grid cell
(0, 0) with zero offset and confidence 0. That cell is flipped and rescaled
like any other. So the joint is not placed at the frame origin but at x = 0,
y = `imageHeight * scale` (times `adjustedScale` on a portrait frame). For a
square model input this is the frame's height. `UndetectedJointPlacement`
and `UndetectedJointOnSquareInput` state this. It is inactive for any
positive `minConfidence`.

## Model

| member | source | states |
|---|---|---|
| PoseDetection.LocateKeyPoint | Assets/Scripts/Runtime/PoseDetection.cs:180-206 | the nested row/column loops end in the scan state for the whole grid: the result is the first cell in raster order whose value beats every earlier value and 0, or the no-detection report; it equals the functional reference `Locate` |
| PoseDetection.ScanRowState | Assets/Scripts/Runtime/PoseDetection.cs:190-203 | the inner loop over row y, one comparison per cell, keeps the scan state: its report is the first strict maximum above 0 among the cells visited so far, or the no-detection report |
| PoseDetection.ScanRowsState | Assets/Scripts/Runtime/PoseDetection.cs:188-204 | after the outer loop has visited y rows the report is the scan state of those rows; for the whole grid this is what `Locate` returns |
| PoseDetection.Locate | Assets/Scripts/Runtime/PoseDetection.cs:180-206 | the report for joint i after the whole grid: its confidence is never negative, and it is either the no-detection report or the reading of one grid cell (cell, offset vector and value) with a positive value |
| PoseDetection.ScanStateUnique | Assets/Scripts/Runtime/PoseDetection.cs:188-204 | at most one report satisfies the scan state at any point of the scan, so the first strict maximum is well defined |
| PoseDetection.LocateNoDetection | Assets/Scripts/Runtime/PoseDetection.cs:183-185 | the reported confidence is never negative; every cell of the channel is at most 0 iff the report is cell (0, 0), offset (0, 0), confidence 0 |
| PoseDetection.LocateFirstMaximum | Assets/Scripts/Runtime/PoseDetection.cs:188-204 | with some positive cell: the reported cell is on the grid, its value is the confidence, no cell exceeds it, and every cell before it in row-major order is strictly smaller (ties go to the first) |
| PoseDetection.LocateOffsetVector | Assets/Scripts/Runtime/PoseDetection.cs:197-201 | a detected joint's offset vector is read at the reported cell: x from channel i + 17, y from channel i |
| PoseDetection.LocateSinglePeak | Assets/Scripts/Runtime/PoseDetection.cs:188-204 | a channel whose only positive cell is (y0, x0) is located exactly at that cell with its value as confidence |
| PoseDetection.TruncDivision | Assets/Scripts/Runtime/PoseDetection.cs:143-144 | the model of C#'s integer `/` and of `%` on the integral float stride: quotient and remainder recombine to the dividend, the remainder is smaller than the divisor and takes the dividend's sign, and the quotient never overshoots |
| PoseDetection.Stride | Assets/Scripts/Runtime/PoseDetection.cs:143-144 | the stride computation fails exactly when the heatmap has height 1, and then the fault is division by zero |
| PoseDetection.StrideRoundsToMultipleOf8 | Assets/Scripts/Runtime/PoseDetection.cs:143-144 | the stride is the integer quotient rounded toward zero to a multiple of 8, within 8 of it; for a real image and at least two heatmap rows it is a non-negative multiple of 8 no larger than the quotient |
| PoseDetection.RoundTowardZeroTo8 | Assets/Scripts/Runtime/PoseDetection.cs:144 | subtracting the truncated remainder modulo 8 gives a multiple of 8 with the quotient's sign, at most the quotient in magnitude and less than 8 away from it |
| PoseDetection.StrideOf481Over61 | Assets/Scripts/Runtime/PoseDetection.cs:143-144 | a 481-pixel model input over a 61-row heatmap gives stride 8 |
| PoseDetection.StrideOfDefaultInput | Assets/Scripts/Runtime/PoseDetection.cs:143-144 | with the default 480-pixel input (`imageHeight = 480`, line 25) the stride is 0 over a 61-row heatmap and 8 over a 31-row heatmap |
| PoseDetection.LongAxisFactor | Assets/Scripts/Runtime/PoseDetection.cs:146-151 | scale times adjustedScale is the longer frame side over the shorter model-input side |
| PoseDetection.FrameSpaceIsProportional | Assets/Scripts/Runtime/PoseDetection.cs:146-174 | the contract of `ToFrameSpace`: in either orientation it multiplies x by frame width / m and y by frame height / m, with m the shorter model-input side; exactly one axis receives adjustedScale |
| PoseDetection.SquareFrameNotStretched | Assets/Scripts/Runtime/PoseDetection.cs:146-151 | for a square frame adjustedScale is 1 and both axes are scaled by `scale` alone |
| PoseDetection.ProcessResults | Assets/Scripts/Runtime/PoseDetection.cs:138-178 | decoding succeeds iff the heatmap height is not 1, otherwise faults with division by zero, and yields one estimate per joint (17) |
| PoseDetection.EstimatePlacement | Assets/Scripts/Runtime/PoseDetection.cs:157-176 | the contract of `EstimateFor`: one joint's estimate carries the located confidence (never negative) and sits at its flipped model point (gx * stride + ox, imageHeight - (gy * stride + oy)) with x stretched by width / m and y by height / m |
| PoseDetection.ProcessResultsPlacement | Assets/Scripts/Runtime/PoseDetection.cs:154-177 | decoded joint k has the located confidence (never negative) at its model point (gx * stride + ox, imageHeight - (gy * stride + oy)), x stretched by width / m and y by height / m |
| PoseDetection.UndetectedJointPlacement | Assets/Scripts/Runtime/PoseDetection.cs:154-177 | a joint with no positive cell decodes to confidence 0 at x = 0 and y = imageHeight * height / m, not at the frame origin |
| PoseDetection.UndetectedJointOnSquareInput | Assets/Scripts/Runtime/PoseDetection.cs:154-177 | with a square model input such a joint decodes to exactly (0, frame height) with confidence 0 |
| PoseDetection.PlaceKeypoints | Assets/Scripts/Runtime/PoseDetection.cs:270-287 | marker k < 17 is active iff its confidence is at least minConfidence / 100 and sits at (x_k, y_k, -1) regardless; markers past 17 are untouched; the pass faults iff there are fewer than 17 markers |
| PoseDetection.GateMonotone | Assets/Scripts/Runtime/PoseDetection.cs:274-285 | raising minConfidence can only switch markers off and never moves them |
| PoseDetection.GateIdempotent | Assets/Scripts/Runtime/PoseDetection.cs:270-287 | the gate depends only on the estimates: a second pass over its own output changes nothing |
| PoseDetection.ZeroConfidenceInactive | Assets/Scripts/Runtime/PoseDetection.cs:274-281 | a joint of confidence 0 is inactive iff minConfidence is positive |
| SkeletonRenderer.InitializeLine | Assets/Scripts/Runtime/DrawSkeleton.cs:37-52 | the call succeeds iff the slot and both joint indices are in range, otherwise faults with an index error; it sets the slot's pair, width and colour and a fresh line, and changes no other slot |
| SkeletonRenderer.InitializeLines | Assets/Scripts/Runtime/DrawSkeleton.cs:57-94 | a run of calls stops at the first fault, which is an index error, and otherwise keeps the keypoint count and the array sizes |
| SkeletonRenderer.InitializeLinesSpec | Assets/Scripts/Runtime/DrawSkeleton.cs:57-94 | a run of calls succeeds iff every call is in range; a slot no later call overwrites holds its call's bone; a slot no call names keeps its contents |
| SkeletonRenderer.TableShape | Assets/Scripts/Runtime/DrawSkeleton.cs:57-94 | the table has 18 calls, call k fills slot k (so each slot is set exactly once), every joint index is below 17, and slots 0-3 are red, 4-9 magenta, 10-13 blue, 14-17 green |
| SkeletonRenderer.Start | Assets/Scripts/Runtime/DrawSkeleton.cs:15-22 | start-up succeeds iff there are at least 17 keypoint objects, otherwise faults with an index error; the arrays have keypoints + 1 slots; slot k < 18 holds table bone k, width 5, its region colour and joints below 17, with a fresh line; slots past 17 stay null with no line |
| SkeletonRenderer.StartFaults | Assets/Scripts/Runtime/DrawSkeleton.cs:37-41 | with fewer than 17 keypoint objects some table call names a slot or a keypoint past the end of its array, so the table run faults |
| SkeletonRenderer.StartSucceeds | Assets/Scripts/Runtime/DrawSkeleton.cs:15-22 | with 17 or more keypoint objects every table call is in range and all arrays have keypoints + 1 slots |
| SkeletonRenderer.TableRunShape | Assets/Scripts/Runtime/DrawSkeleton.cs:57-94 | a successful run of 18 calls where call k names slot k leaves slot k with call k's bone and a fresh line, and every later slot as it was |
| SkeletonRenderer.StartShape | Assets/Scripts/Runtime/DrawSkeleton.cs:15-22 | a successful start-up has keypoints + 1 slots, the table's bones and fresh lines in slots 0..17, and neither pair nor line after them |
| SkeletonRenderer.TableSlotsShape | Assets/Scripts/Runtime/DrawSkeleton.cs:13-94 | a skeleton holding the table's bones is well formed, each bone of width 5 with its region colour |
| SkeletonRenderer.FirstUnset | Assets/Scripts/Runtime/DrawSkeleton.cs:102-107 | the slot where a pass stops on a null pair: every slot before it holds a pair, and it is null or the end |
| SkeletonRenderer.RenderLine | Assets/Scripts/Runtime/DrawSkeleton.cs:122-136 | one line's update: visible iff both its keypoints are active; a visible line spans their positions; a hidden line keeps its endpoints |
| SkeletonRenderer.Render | Assets/Scripts/Runtime/DrawSkeleton.cs:99-138 | a pass keeps the bone table; it faults iff some slot is null; before the first null slot line i is visible iff both joints of pair i are active, then spans their positions, and is otherwise hidden with its endpoints kept; later lines are unchanged |
| SkeletonRenderer.RenderSkeleton | Assets/Scripts/Runtime/DrawSkeleton.cs:99-138 | the imperative loop over the slots, updating line i from pair i only, computes the same lines and fault as `Render` |
| SkeletonRenderer.RenderIdempotent | Assets/Scripts/Runtime/DrawSkeleton.cs:99-138 | a second pass over a pass's output with the same keypoints changes nothing |
| SkeletonRenderer.RenderForgetsPreviousFrame | Assets/Scripts/Runtime/DrawSkeleton.cs:122-136 | which lines are shown, and where shown lines lie, does not depend on the previous frame's lines |
| SkeletonRenderer.StartedRendererNeverFaults | Assets/Scripts/Runtime/DrawSkeleton.cs:17-20 | with exactly 17 keypoint objects there are 18 slots, all filled, so a pass never faults |
| Pipeline.PoseUpdate | Assets/Scripts/Runtime/PoseDetection.cs:106-125 | a frame whose decode faults leaves every marker as it was; otherwise the markers are the gate's pass over the decoded estimates, which faults only on a short marker array |
| Pipeline.Frame | Assets/Scripts/Runtime/PoseDetection.cs:106-125 | one frame, detector update then renderer pass over the same markers: the detector faults iff the heatmap has height 1 or the marker array is short; the renderer keeps its bone table and faults iff it has a null slot; its markers and detector fault are those of `PoseUpdate`, and its lines are those of `Render` over those markers |
| Pipeline.MarkerOfJoint | Assets/Scripts/Runtime/PoseDetection.cs:270-287 | after a decoded frame marker k is active iff joint k was located with confidence at least minConfidence / 100, and sits at its decoded position at depth -1 |
| Pipeline.BoneShownIffBothJointsConfident | Assets/Scripts/Runtime/PoseDetection.cs:106-125 | after a frame, bone i of a renderer started on the 17 markers is shown iff both its joints were located with confidence at least minConfidence / 100, and then spans their decoded positions at depth -1; neither stage faults |
| Pipeline.PeakFrameShape | Assets/Scripts/Runtime/PoseDetection.cs:143-144 | a 61 x 61 heatmap for a 481-pixel input is a well-formed network output with stride 8 |
| Pipeline.PeakJointDecodes | Assets/Scripts/Runtime/PoseDetection.cs:138-178 | a single 0.9 peak at cell (30, 30) with zero offsets decodes, for a 640 x 480 frame, to (153600/481, 115680/481) with confidence 0.9 |
| Pipeline.OtherJointsUndetected | Assets/Scripts/Runtime/PoseDetection.cs:138-178 | in that frame every joint with an all-zero channel decodes to (0, 480) with confidence 0 |
| Pipeline.PeakFrameGate | Assets/Scripts/Runtime/PoseDetection.cs:270-287 | at 30 percent only the peaked joint's marker is active after that frame, and every marker sits at its decoded position at depth -1 |

## Left out

- Model loading, the appended sigmoid layer, worker creation, `Execute`, `PeekOutput` and `Dispose`. These are calls into the inference library. The two output tensors are parameters of the model.
- Video player, render textures, the quad and camera placement. These are scene glue with no logic the decoder depends on.
- `PreprocessTexture`, `PreprocessNetwork` and `Resize`. These are GPU compute-shader and blit plumbing.
- Material and shader creation, line names and `LineRenderer` construction. A line is modelled only as its visibility and two endpoints.
- Unity's per-frame scheduling of `Update` and `LateUpdate`. `Pipeline.Frame` runs one detector update and then one renderer pass; the engine's loop over frames is not modelled.
- The markers are taken to be distinct objects. The model treats each entry of `keypoints` as an independent value, so one GameObject listed twice would alias the gate's writes (PoseDetection.cs:276, 285), and the later write would win for both entries.
- The detector's and the renderer's keypoint arrays are two separate inspector fields. `Pipeline.Frame` assumes the scene wires them to the same objects in the same order, so the renderer reads the markers the detector placed.
- Markers are never null. A null entry in either keypoint array would throw where the gate sets it (PoseDetection.cs lines 276 and 285), where a table call reads its name (DrawSkeleton.cs line 41), or where a pass reads its position (DrawSkeleton.cs lines 114-120); that fault is not modelled.
- IEEE float behaviour: rounding, infinities and NaN. Positions, scales and confidences are exact reals.
- PoseDetection.ProcessResults: requires a positive frame and model-input size. With a zero side the source divides floats by zero and produces infinities or NaN rather than an exception, which `real` cannot represent.
- PoseDetection.ProcessResults: requires heatmaps and offsets on the same grid with at least 17 and 34 channels. The inference library's behaviour on out-of-range tensor reads is not part of this model.
- PoseDetection.PlaceKeypoints: the short-array fault is a flag on the result, not an exception object.
- SkeletonRenderer.Start: on a fault it returns only the fault. The source has already written the table slots before the failing call, and, when its slot exists, that failing call's pair, and it leaves them in place. With 13, 14 or 16 keypoint objects the failing call's slot is itself past the end of the pair array, so its pair is not written.
- SkeletonRenderer.Render: the null-pair fault is a flag on the result, not an exception object. The lines updated before the null slot are modelled.
- `activeInHierarchy` is modelled as the marker's own active flag. The markers' parents are taken to be active.
- The tensors' batch dimension is fixed at 0, as the source indexes it.

=== FILE: faults.dfy ===
/** Run-time faults the modelled C# code can raise, and a failure-compatible
    result type so that the faulting paths are values rather than preconditions. */
module Faults {

  /** The exceptions the core can throw. */
  datatype Fault =
    | DivideByZero      // integer division by zero in the stride computation
    | IndexOutOfRange   // an array index past the end of a keypoint or bone array

  /** Either a value or the fault that aborted the computation. */
  datatype Result<+T> = Ok(value: T) | Err(fault: Fault) {

    predicate IsFailure() {
      Err?
    }

    function PropagateFailure<U>(): Result<U>
      requires Err?
    {
      Err(fault)
    }

    function Extract(): T
      requires Ok?
    {
      value
    }
  }
}

=== FILE: pipeline.dfy ===
/** One frame of the whole overlay: the detector decodes the network output
    and places the keypoint markers, then the renderer updates the bone lines
    from those markers. */
module Pipeline {
  import opened Faults
  import opened Scene
  import opened PoseDetection
  import opened SkeletonRenderer

  /** The detector's part of a frame: decode, then gate and place the markers.
      When decoding faults the frame stops there and the markers keep their
      previous state. */
  function PoseUpdate(heatmaps: Tensor, offsets: Tensor, imageWidth: int, imageHeight: int,
                      frame: FrameSize, minConfidence: int, keypoints: seq<KeypointObject>): (r: Placement)
    requires Compatible(heatmaps, offsets)
    requires Sized(frame, imageWidth, imageHeight)
    ensures |r.objects| == |keypoints|
    ensures heatmaps.height == 1 ==> r == Placement(keypoints, true)
    ensures heatmaps.height != 1 ==> (r.fault <==> |keypoints| < NumKeypoints)
    ensures heatmaps.height != 1 ==>
      r == PlaceKeypoints(ProcessResults(heatmaps, offsets, imageWidth, imageHeight, frame).value,
                          minConfidence, keypoints)
  {
    match ProcessResults(heatmaps, offsets, imageWidth, imageHeight, frame)
    case Err(_) => Placement(keypoints, true)
    case Ok(estimates) => PlaceKeypoints(estimates, minConfidence, keypoints)
  }

  /** What one frame leaves behind: the markers after the detector's update,
      the renderer's state after its pass over those markers, and which of the
      two raised. */
  datatype FrameResult = FrameResult(markers: seq<KeypointObject>, skeleton: Skeleton,
                                     detectorFault: bool, rendererFault: bool)

  /** One frame: the detector decodes and gates (its update), then the renderer
      draws from the markers (its late update). The renderer's keypoint array is
      the detector's marker array. A fault in the detector's update does not stop
      the renderer's pass, which then draws the markers as the detector left
      them. */
  function Frame(heatmaps: Tensor, offsets: Tensor, imageWidth: int, imageHeight: int, frame: FrameSize,
                 minConfidence: int, keypoints: seq<KeypointObject>, sk: Skeleton): (r: FrameResult)
    requires Compatible(heatmaps, offsets)
    requires Sized(frame, imageWidth, imageHeight)
    requires sk.Valid() && |keypoints| == sk.keypointCount
    ensures |r.markers| == |keypoints|
    ensures r.detectorFault <==> heatmaps.height == 1 || |keypoints| < NumKeypoints
    ensures heatmaps.height == 1 ==> r.markers == keypoints
    ensures var placed := PoseUpdate(heatmaps, offsets, imageWidth, imageHeight, frame, minConfidence, keypoints);
      r.markers == placed.objects && r.detectorFault == placed.fault
    ensures r.skeleton.bones == sk.bones && r.skeleton.Valid()
    ensures r.rendererFault <==> exists i :: 0 <= i < |sk.bones| && sk.bones[i].Unset?
    ensures r.skeleton == Render(sk, r.markers).skeleton
  {
    var placed := PoseUpdate(heatmaps, offsets, imageWidth, imageHeight, frame, minConfidence, keypoints);
    var rendered := Render(sk, placed.objects);
    FrameResult(placed.objects, rendered.skeleton, placed.fault, rendered.fault)
  }

  /** After a detector update that decoded, marker k is active iff joint k was
      located with at least `minConfidence` percent, and sits at the decoded
      position at depth -1. */
  lemma MarkerOfJoint(heatmaps: Tensor, offsets: Tensor, imageWidth: int, imageHeight: int,
                      frame: FrameSize, minConfidence: int, keypoints: seq<KeypointObject>, k: nat)
    requires Compatible(heatmaps, offsets)
    requires Sized(frame, imageWidth, imageHeight)
    requires heatmaps.height != 1
    requires |keypoints| == NumKeypoints && k < NumKeypoints
    ensures var marker := PoseUpdate(heatmaps, offsets, imageWidth, imageHeight, frame, minConfidence, keypoints).objects[k];
      var estimate := ProcessResults(heatmaps, offsets, imageWidth, imageHeight, frame).value[k];
      && (marker.active <==> Locate(heatmaps, offsets, k).confidence >= Threshold(minConfidence))
      && marker.position == Vec3(estimate.x, estimate.y, -1.0)
  {
    ProcessResultsPlacement(heatmaps, offsets, imageWidth, imageHeight, frame, k);
  }

  /** After a frame, bone i of a renderer started on the 17 markers is shown
      iff both of its joints were located with at least `minConfidence`
      percent; a shown bone runs between the two decoded positions at depth -1.
      Neither stage faults. */
  lemma BoneShownIffBothJointsConfident(heatmaps: Tensor, offsets: Tensor, imageWidth: int, imageHeight: int,
                                        frame: FrameSize, minConfidence: int,
                                        keypoints: seq<KeypointObject>, i: nat)
    requires Compatible(heatmaps, offsets)
    requires Sized(frame, imageWidth, imageHeight)
    requires heatmaps.height != 1
    requires |keypoints| == NumKeypoints && i < TableBones
    ensures Start(NumKeypoints).Ok? && Start(NumKeypoints).value.Valid()
    ensures var f := Frame(heatmaps, offsets, imageWidth, imageHeight, frame, minConfidence, keypoints,
                           Start(NumKeypoints).value);
      var estimates := ProcessResults(heatmaps, offsets, imageWidth, imageHeight, frame).value;
      var s := SkeletonTable[i].startIndex;
      var e := SkeletonTable[i].endIndex;
      var line := f.skeleton.lines[i];
      && !f.detectorFault && !f.rendererFault
      && (line.visible <==>
            && Locate(heatmaps, offsets, s).confidence >= Threshold(minConfidence)
            && Locate(heatmaps, offsets, e).confidence >= Threshold(minConfidence))
      && (line.visible ==>
            && line.start == Vec3(estimates[s].x, estimates[s].y, -1.0)
            && line.end == Vec3(estimates[e].x, estimates[e].y, -1.0))
  {
    TableShape();
    var sk := Start(NumKeypoints).value;
    var placed := PoseUpdate(heatmaps, offsets, imageWidth, imageHeight, frame, minConfidence, keypoints);
    StartedRendererNeverFaults(placed.objects);
    assert sk.bones[i] == Pair(BoneOf(SkeletonTable[i]));
    MarkerOfJoint(heatmaps, offsets, imageWidth, imageHeight, frame, minConfidence, keypoints, SkeletonTable[i].startIndex);
    MarkerOfJoint(heatmaps, offsets, imageWidth, imageHeight, frame, minConfidence, keypoints, SkeletonTable[i].endIndex);
  }

  // ---------------------------------------------------------------------------
  // A worked frame: one confident joint on a 61 x 61 grid
  // ---------------------------------------------------------------------------

  /** Heatmaps of a 61 x 61 grid, zero everywhere except joint 0 at cell
      (30, 30) with value 0.9. */
  const PeakHeatmaps: Tensor :=
    Tensor(61, 61, 17, seq(61, y => seq(61, x => seq(17, c => if c == 0 && y == 30 && x == 30 then 0.9 else 0.0))))

  /** All-zero offsets on the same grid. */
  const ZeroOffsets: Tensor :=
    Tensor(61, 61, 34, seq(61, y => seq(61, x => seq(34, c => 0.0))))

  /** The worked frame is well formed: stride 8, and 17 heatmap and 34 offset
      channels on a 61 x 61 grid. */
  lemma PeakFrameShape()
    ensures Compatible(PeakHeatmaps, ZeroOffsets)
    ensures Sized(FrameSize(640, 480), 481, 481)
    ensures Stride(481, PeakHeatmaps.height) == Ok(8)
  {
    assert PeakHeatmaps.Valid() && ZeroOffsets.Valid();
    StrideOf481Over61();
  }

  /** Joint 0 is found at its only positive cell, (30, 30), which is model
      point (240, 241), stretched into a 640 x 480 video. */
  lemma PeakJointDecodes()
    ensures Compatible(PeakHeatmaps, ZeroOffsets)
    ensures var r := ProcessResults(PeakHeatmaps, ZeroOffsets, 481, 481, FrameSize(640, 480));
      r.Ok? && r.value[0] == Estimate(153600.0 / 481.0, 115680.0 / 481.0, 0.9)
  {
    PeakFrameShape();
    LocateSinglePeak(PeakHeatmaps, ZeroOffsets, 0, 30, 30);
    ProcessResultsPlacement(PeakHeatmaps, ZeroOffsets, 481, 481, FrameSize(640, 480), 0);
  }

  /** Every other joint has no positive cell and lands at (0, 480) with
      confidence 0. */
  lemma OtherJointsUndetected()
    ensures Compatible(PeakHeatmaps, ZeroOffsets)
    ensures var r := ProcessResults(PeakHeatmaps, ZeroOffsets, 481, 481, FrameSize(640, 480));
      r.Ok? && forall k :: 1 <= k < NumKeypoints ==> r.value[k] == Estimate(0.0, 480.0, 0.0)
  {
    PeakFrameShape();
    var r := ProcessResults(PeakHeatmaps, ZeroOffsets, 481, 481, FrameSize(640, 480));
    forall k | 1 <= k < NumKeypoints
      ensures r.value[k] == Estimate(0.0, 480.0, 0.0)
    {
      UndetectedJointOnSquareInput(PeakHeatmaps, ZeroOffsets, 481, FrameSize(640, 480), k);
    }
  }

  /** At the default 30 percent only joint 0's marker is active after that frame. */
  lemma PeakFrameGate(keypoints: seq<KeypointObject>)
    requires |keypoints| == NumKeypoints
    ensures Compatible(PeakHeatmaps, ZeroOffsets)
    ensures var placed := PoseUpdate(PeakHeatmaps, ZeroOffsets, 481, 481, FrameSize(640, 480), 30, keypoints);
      && !placed.fault
      && placed.objects[0].active
      && placed.objects[0].position == Vec3(153600.0 / 481.0, 115680.0 / 481.0, -1.0)
      && forall k :: 1 <= k < NumKeypoints ==>
           !placed.objects[k].active && placed.objects[k].position == Vec3(0.0, 480.0, -1.0)
  {
    PeakJointDecodes();
    OtherJointsUndetected();
  }
}

=== FILE: pose_detection.dfy ===
/** The per-frame keypoint decoder of the pose detector: for every joint, find
    the strongest heatmap cell, refine it with the offset vector stored there,
    turn the grid cell into a model-input coordinate and rescale that into the
    coordinate space of the video frame; then gate each keypoint on its
    confidence and place its marker object. */
module PoseDetection {
  import opened Faults
  import opened Scene

  /** Number of joints the network predicts (nose, eyes, ears, shoulders,
      elbows, wrists, hips, knees, ankles). */
  const NumKeypoints: nat := 17

  // ---------------------------------------------------------------------------
  // Tensors
  // ---------------------------------------------------------------------------

  /** A network output of shape (1, height, width, channels), indexed [y][x][c]. */
  datatype Tensor = Tensor(height: nat, width: nat, channels: nat, data: seq<seq<seq<real>>>) {

    /** The nested sequences really have the declared shape. */
    predicate Valid() {
      && |data| == height
      && (forall y :: 0 <= y < height ==> |data[y]| == width)
      && (forall y, x :: 0 <= y < height && 0 <= x < width ==> |data[y][x]| == channels)
    }

    function At(y: nat, x: nat, c: nat): real
      requires Valid() && y < height && x < width && c < channels
    {
      data[y][x][c]
    }
  }

  /** Heatmaps and offsets describe the same grid; there is one heatmap channel
      per joint and two offset channels (y, then x) per joint. A mismatch is a
      wiring error between the network and the decoder. */
  predicate Compatible(heatmaps: Tensor, offsets: Tensor) {
    && heatmaps.Valid()
    && offsets.Valid()
    && heatmaps.height == offsets.height
    && heatmaps.width == offsets.width
    && heatmaps.channels >= NumKeypoints
    && offsets.channels >= 2 * NumKeypoints
  }

  // ---------------------------------------------------------------------------
  // LocateKeyPoint: raster-order argmax of one heatmap channel
  // ---------------------------------------------------------------------------

  /** What the search reports for one joint: the grid cell (x, y), the offset
      vector read at that cell, and the heatmap value there. */
  datatype Location = Location(x: nat, y: nat, offsetX: real, offsetY: real, confidence: real)

  /** The report when no cell beats the initial running maximum of 0. */
  const NoDetection := Location(0, 0, 0.0, 0.0, 0.0)

  /** The report for cell (y, x) of joint i. The x offset is read from channel
      i + 17 and the y offset from channel i. */
  function CellLocation(heatmaps: Tensor, offsets: Tensor, i: nat, y: nat, x: nat): Location
    requires Compatible(heatmaps, offsets) && i < NumKeypoints
    requires y < heatmaps.height && x < heatmaps.width
  {
    Location(x, y, offsets.At(y, x, i + NumKeypoints), offsets.At(y, x, i), heatmaps.At(y, x, i))
  }

  /** Cell (y1, x1) comes before cell (y2, x2) in the scan: rows outer, columns inner. */
  predicate Before(y1: nat, x1: nat, y2: nat, x2: nat) {
    y1 < y2 || (y1 == y2 && x1 < x2)
  }

  /** Cell (cy, cx) is on the grid and has been visited once the scan stands at (y, x). */
  predicate Scanned(t: Tensor, cy: nat, cx: nat, y: nat, x: nat) {
    cy < t.height && cx < t.width && Before(cy, cx, y, x)
  }

  /** `loc` is the right report for the cells visited before (y, x): NoDetection
      if none of them is positive in channel i, otherwise the FIRST visited cell
      holding the largest value, which is positive. */
  ghost predicate ScanState(heatmaps: Tensor, offsets: Tensor, i: nat, y: nat, x: nat, loc: Location)
    requires Compatible(heatmaps, offsets) && i < NumKeypoints
  {
    || (&& loc == NoDetection
        && forall cy: nat, cx: nat :: Scanned(heatmaps, cy, cx, y, x) ==> heatmaps.At(cy, cx, i) <= 0.0)
    || (&& Scanned(heatmaps, loc.y, loc.x, y, x)
        && loc == CellLocation(heatmaps, offsets, i, loc.y, loc.x)
        && loc.confidence > 0.0
        && (forall cy: nat, cx: nat :: Scanned(heatmaps, cy, cx, y, x) ==> heatmaps.At(cy, cx, i) <= loc.confidence)
        && (forall cy: nat, cx: nat :: Scanned(heatmaps, cy, cx, loc.y, loc.x) ==> heatmaps.At(cy, cx, i) < loc.confidence))
  }

  /** One comparison of the scan: a strictly larger value takes over. */
  function Step(heatmaps: Tensor, offsets: Tensor, i: nat, y: nat, x: nat, acc: Location): Location
    requires Compatible(heatmaps, offsets) && i < NumKeypoints
    requires y < heatmaps.height && x < heatmaps.width
  {
    if heatmaps.At(y, x, i) > acc.confidence then CellLocation(heatmaps, offsets, i, y, x) else acc
  }

  /** The running report after visiting cells (y, 0) .. (y, x - 1), starting from `acc`. */
  function ScanRow(heatmaps: Tensor, offsets: Tensor, i: nat, y: nat, x: nat, acc: Location): Location
    requires Compatible(heatmaps, offsets) && i < NumKeypoints
    requires y < heatmaps.height && x <= heatmaps.width
    decreases x
  {
    if x == 0 then acc
    else Step(heatmaps, offsets, i, y, x - 1, ScanRow(heatmaps, offsets, i, y, x - 1, acc))
  }

  /** The running report after visiting rows 0 .. y - 1. */
  function ScanRows(heatmaps: Tensor, offsets: Tensor, i: nat, y: nat): Location
    requires Compatible(heatmaps, offsets) && i < NumKeypoints
    requires y <= heatmaps.height
    decreases y
  {
    if y == 0 then NoDetection
    else ScanRow(heatmaps, offsets, i, y - 1, heatmaps.width, ScanRows(heatmaps, offsets, i, y - 1))
  }

  /** The report for joint i after the whole grid has been scanned: either
      NoDetection or the reading of one grid cell, with a positive confidence. */
  function Locate(heatmaps: Tensor, offsets: Tensor, i: nat): (r: Location)
    requires Compatible(heatmaps, offsets) && i < NumKeypoints
    ensures r.confidence >= 0.0
    ensures || r == NoDetection
            || (&& r.y < heatmaps.height && r.x < heatmaps.width
                && r == CellLocation(heatmaps, offsets, i, r.y, r.x)
                && r.confidence > 0.0)
  {
    ScanRowsState(heatmaps, offsets, i, heatmaps.height);
    ScanRows(heatmaps, offsets, i, heatmaps.height)
  }

  lemma StepPreservesScanState(heatmaps: Tensor, offsets: Tensor, i: nat, y: nat, x: nat, acc: Location)
    requires Compatible(heatmaps, offsets) && i < NumKeypoints
    requires y < heatmaps.height && x < heatmaps.width
    requires ScanState(heatmaps, offsets, i, y, x, acc)
    ensures ScanState(heatmaps, offsets, i, y, x + 1, Step(heatmaps, offsets, i, y, x, acc))
  {
    var v := heatmaps.At(y, x, i);
    // The visited region grows by exactly the cell (y, x).
    forall cy: nat, cx: nat | Scanned(heatmaps, cy, cx, y, x + 1)
      ensures Scanned(heatmaps, cy, cx, y, x) || (cy == y && cx == x)
    {
    }
    if v > acc.confidence {
      assert acc.confidence >= 0.0;
      var loc := CellLocation(heatmaps, offsets, i, y, x);
      forall cy: nat, cx: nat | Scanned(heatmaps, cy, cx, y, x)
        ensures heatmaps.At(cy, cx, i) < v
      {
      }
      assert ScanState(heatmaps, offsets, i, y, x + 1, loc);
    }
  }

  /** Finishing row y and starting row y + 1 visit the same cells. */
  lemma RowWrap(heatmaps: Tensor, offsets: Tensor, i: nat, y: nat, loc: Location)
    requires Compatible(heatmaps, offsets) && i < NumKeypoints
    requires ScanState(heatmaps, offsets, i, y, heatmaps.width, loc)
    ensures ScanState(heatmaps, offsets, i, y + 1, 0, loc)
  {
    forall cy: nat, cx: nat
      ensures Scanned(heatmaps, cy, cx, y, heatmaps.width) == Scanned(heatmaps, cy, cx, y + 1, 0)
    {
    }
  }

  /** The inner loop over row y keeps the scan state cell by cell. */
  lemma {:induction false} ScanRowState(heatmaps: Tensor, offsets: Tensor, i: nat, y: nat, x: nat, acc: Location)
    requires Compatible(heatmaps, offsets) && i < NumKeypoints
    requires y < heatmaps.height && x <= heatmaps.width
    requires ScanState(heatmaps, offsets, i, y, 0, acc)
    ensures ScanState(heatmaps, offsets, i, y, x, ScanRow(heatmaps, offsets, i, y, x, acc))
    decreases x
  {
    if x > 0 {
      ScanRowState(heatmaps, offsets, i, y, x - 1, acc);
      StepPreservesScanState(heatmaps, offsets, i, y, x - 1, ScanRow(heatmaps, offsets, i, y, x - 1, acc));
    }
  }

  /** After the outer loop has visited y rows, the running report is the
      scan state of those rows. */
  lemma {:induction false} ScanRowsState(heatmaps: Tensor, offsets: Tensor, i: nat, y: nat)
    requires Compatible(heatmaps, offsets) && i < NumKeypoints
    requires y <= heatmaps.height
    ensures ScanState(heatmaps, offsets, i, y, 0, ScanRows(heatmaps, offsets, i, y))
    decreases y
  {
    if y > 0 {
      var acc := ScanRows(heatmaps, offsets, i, y - 1);
      ScanRowsState(heatmaps, offsets, i, y - 1);
      ScanRowState(heatmaps, offsets, i, y - 1, heatmaps.width, acc);
      RowWrap(heatmaps, offsets, i, y - 1, ScanRow(heatmaps, offsets, i, y - 1, heatmaps.width, acc));
    }
  }

  /** The scan's report is fully determined by the cells visited: at most one
      location is a first maximum. */
  lemma ScanStateUnique(heatmaps: Tensor, offsets: Tensor, i: nat, y: nat, x: nat, a: Location, b: Location)
    requires Compatible(heatmaps, offsets) && i < NumKeypoints
    requires ScanState(heatmaps, offsets, i, y, x, a)
    requires ScanState(heatmaps, offsets, i, y, x, b)
    ensures a == b
  {
    // Each report's cell value bounds the other's, and a cell visited before a
    // report's cell is strictly below it; so the two cells coincide.
    if a != NoDetection {
      assert Scanned(heatmaps, a.y, a.x, y, x) && heatmaps.At(a.y, a.x, i) == a.confidence;
    }
    if b != NoDetection {
      assert Scanned(heatmaps, b.y, b.x, y, x) && heatmaps.At(b.y, b.x, i) == b.confidence;
    }
    if a != NoDetection && b != NoDetection {
      assert Before(a.y, a.x, b.y, b.x) ==> Scanned(heatmaps, a.y, a.x, b.y, b.x);
      assert Before(b.y, b.x, a.y, a.x) ==> Scanned(heatmaps, b.y, b.x, a.y, a.x);
    }
  }

  /** Locate reports the first maximal cell of the whole grid. */
  lemma LocateState(heatmaps: Tensor, offsets: Tensor, i: nat)
    requires Compatible(heatmaps, offsets) && i < NumKeypoints
    ensures ScanState(heatmaps, offsets, i, heatmaps.height, 0, Locate(heatmaps, offsets, i))
  {
    ScanRowsState(heatmaps, offsets, i, heatmaps.height);
  }

  /** The search for joint i, as the nested loops of the detector run it. */
  method LocateKeyPoint(heatmaps: Tensor, offsets: Tensor, i: nat) returns (loc: Location)
    requires Compatible(heatmaps, offsets) && i < NumKeypoints
    ensures ScanState(heatmaps, offsets, i, heatmaps.height, 0, loc)
    ensures loc == Locate(heatmaps, offsets, i)
  {
    loc := NoDetection;
    var y := 0;
    while y < heatmaps.height
      invariant y <= heatmaps.height
      invariant ScanState(heatmaps, offsets, i, y, 0, loc)
    {
      var x := 0;
      while x < heatmaps.width
        invariant x <= heatmaps.width
        invariant ScanState(heatmaps, offsets, i, y, x, loc)
      {
        StepPreservesScanState(heatmaps, offsets, i, y, x, loc);
        if heatmaps.data[y][x][i] > loc.confidence {
          loc := Location(x, y, offsets.data[y][x][i + NumKeypoints], offsets.data[y][x][i], heatmaps.data[y][x][i]);
        }
        x := x + 1;
      }
      RowWrap(heatmaps, offsets, i, y, loc);
      y := y + 1;
    }
    LocateState(heatmaps, offsets, i);
    ScanStateUnique(heatmaps, offsets, i, heatmaps.height, 0, loc, Locate(heatmaps, offsets, i));
  }

  /** Channel i has no positive cell exactly when the search reports NoDetection;
      the reported confidence is never negative. */
  lemma LocateNoDetection(heatmaps: Tensor, offsets: Tensor, i: nat)
    requires Compatible(heatmaps, offsets) && i < NumKeypoints
    ensures Locate(heatmaps, offsets, i).confidence >= 0.0
    ensures (forall y: nat, x: nat :: y < heatmaps.height && x < heatmaps.width ==> heatmaps.At(y, x, i) <= 0.0)
            <==> Locate(heatmaps, offsets, i) == NoDetection
  {
    LocateState(heatmaps, offsets, i);
    var loc := Locate(heatmaps, offsets, i);
    if loc != NoDetection {
      assert heatmaps.At(loc.y, loc.x, i) > 0.0;
    }
  }

  /** When channel i has a positive cell, the reported cell is on the grid, its
      value is the reported confidence, no cell exceeds it, and every cell
      before it in raster order is strictly smaller: ties go to the first. */
  lemma LocateFirstMaximum(heatmaps: Tensor, offsets: Tensor, i: nat)
    requires Compatible(heatmaps, offsets) && i < NumKeypoints
    requires exists y: nat, x: nat :: y < heatmaps.height && x < heatmaps.width && heatmaps.At(y, x, i) > 0.0
    ensures var loc := Locate(heatmaps, offsets, i);
      && loc.y < heatmaps.height && loc.x < heatmaps.width
      && loc.confidence == heatmaps.At(loc.y, loc.x, i)
      && (forall y: nat, x: nat :: y < heatmaps.height && x < heatmaps.width ==> heatmaps.At(y, x, i) <= loc.confidence)
      && (forall y: nat, x: nat :: Before(y, x, loc.y, loc.x) && x < heatmaps.width ==> heatmaps.At(y, x, i) < loc.confidence)
  {
    LocateState(heatmaps, offsets, i);
    var loc := Locate(heatmaps, offsets, i);
    var y0: nat, x0: nat :| y0 < heatmaps.height && x0 < heatmaps.width && heatmaps.At(y0, x0, i) > 0.0;
    assert Scanned(heatmaps, y0, x0, heatmaps.height, 0);
    forall y: nat, x: nat | Before(y, x, loc.y, loc.x) && x < heatmaps.width
      ensures heatmaps.At(y, x, i) < loc.confidence
    {
      assert Scanned(heatmaps, y, x, loc.y, loc.x);
    }
  }

  /** The offset vector is read at the reported cell: x from channel i + 17,
      y from channel i. */
  lemma LocateOffsetVector(heatmaps: Tensor, offsets: Tensor, i: nat)
    requires Compatible(heatmaps, offsets) && i < NumKeypoints
    requires Locate(heatmaps, offsets, i) != NoDetection
    ensures var loc := Locate(heatmaps, offsets, i);
      && loc.y < offsets.height && loc.x < offsets.width
      && loc.offsetX == offsets.At(loc.y, loc.x, i + NumKeypoints)
      && loc.offsetY == offsets.At(loc.y, loc.x, i)
  {
    LocateState(heatmaps, offsets, i);
  }

  /** A channel whose only positive cell is (y0, x0) is located exactly there. */
  lemma LocateSinglePeak(heatmaps: Tensor, offsets: Tensor, i: nat, y0: nat, x0: nat)
    requires Compatible(heatmaps, offsets) && i < NumKeypoints
    requires y0 < heatmaps.height && x0 < heatmaps.width && heatmaps.At(y0, x0, i) > 0.0
    requires forall y: nat, x: nat :: y < heatmaps.height && x < heatmaps.width && (y != y0 || x != x0) ==>
               heatmaps.At(y, x, i) <= 0.0
    ensures Locate(heatmaps, offsets, i) == CellLocation(heatmaps, offsets, i, y0, x0)
    ensures Locate(heatmaps, offsets, i).confidence == heatmaps.At(y0, x0, i)
  {
    LocateState(heatmaps, offsets, i);
    var peak := CellLocation(heatmaps, offsets, i, y0, x0);
    assert ScanState(heatmaps, offsets, i, heatmaps.height, 0, peak);
    ScanStateUnique(heatmaps, offsets, i, heatmaps.height, 0, peak, Locate(heatmaps, offsets, i));
  }

  // ---------------------------------------------------------------------------
  // Stride
  // ---------------------------------------------------------------------------

  function Abs(a: int): nat {
    if a < 0 then -a else a
  }

  /** C#'s integer `/`: the quotient truncated toward zero. */
  function TruncDiv(a: int, b: int): int
    requires b != 0
  {
    if (a >= 0) == (b > 0) then Abs(a) / Abs(b) else -(Abs(a) / Abs(b))
  }

  /** C#'s `%`: the remainder of |a| by |b|, carrying the sign of `a`. The
      stride is a `float`, and C#'s float `%` on integral values gives exactly
      this truncated remainder. */
  function TruncRem(a: int, b: int): int
    requires b != 0
  {
    if a >= 0 then Abs(a) % Abs(b) else -(Abs(a) % Abs(b))
  }

  lemma TruncRemBounds(a: int, b: int)
    requires b != 0
    ensures Abs(TruncRem(a, b)) < Abs(b)
    ensures TruncRem(a, b) == 0 || ((TruncRem(a, b) > 0) <==> (a > 0))
  {
    var m: int := Abs(a) % Abs(b);
    assert 0 <= m < Abs(b);
    if a == 0 {
      assert m == 0;
    }
    assert TruncRem(a, b) == (if a >= 0 then m else -m);
  }

  lemma TruncDivRecombines(a: int, b: int)
    requires b != 0
    ensures a == b * TruncDiv(a, b) + TruncRem(a, b)
  {
    var q := Abs(a) / Abs(b);
    var m := Abs(a) % Abs(b);
    assert Abs(a) == Abs(b) * q + m;
    if b > 0 {
      assert b * TruncDiv(a, b) == (if a >= 0 then Abs(b) * q else -(Abs(b) * q));
    } else {
      assert b * q == -(Abs(b) * q);
      assert b * TruncDiv(a, b) == (if a >= 0 then -(b * q) else b * q);
    }
  }

  lemma TruncDivMagnitude(a: int, b: int)
    requires b != 0
    ensures Abs(b) * Abs(TruncDiv(a, b)) <= Abs(a)
  {
    var dividend := Abs(a);
    var divisor := Abs(b);
    var q := dividend / divisor;
    assert dividend == divisor * q + dividend % divisor;
    assert Abs(TruncDiv(a, b)) == q;
  }

  /** TruncDiv and TruncRem are the truncating division: they recombine to `a`,
      the remainder is smaller than the divisor and never of the opposite sign
      to `a`, and the quotient never overshoots in magnitude. */
  lemma TruncDivision(a: int, b: int)
    requires b != 0
    ensures a == b * TruncDiv(a, b) + TruncRem(a, b)
    ensures Abs(TruncRem(a, b)) < Abs(b)
    ensures TruncRem(a, b) == 0 || ((TruncRem(a, b) > 0) <==> (a > 0))
    ensures Abs(b) * Abs(TruncDiv(a, b)) <= Abs(a)
  {
    TruncRemBounds(a, b);
    TruncDivRecombines(a, b);
    TruncDivMagnitude(a, b);
  }

  /** The network's downsampling factor: `(imageHeight - 1) / (heatmapHeight - 1)`
      with C#'s integer division, then reduced by its remainder modulo 8
      (a float `%` on an integral value, which is `TruncRem`).
      A heatmap of height 1 makes the division throw. */
  function Stride(imageHeight: int, heatmapHeight: nat): (r: Result<int>)
    ensures r.Ok? <==> heatmapHeight != 1
    ensures r.Err? ==> r.fault == DivideByZero
  {
    if heatmapHeight - 1 == 0 then Err(DivideByZero)
    else
      var quotient := TruncDiv(imageHeight - 1, heatmapHeight - 1);
      Ok(quotient - TruncRem(quotient, 8))
  }

  /** The stride is the integer quotient rounded toward zero to a multiple of 8:
      a multiple of 8, of the quotient's sign, at most the quotient in magnitude
      and within 8 of it. For a real image and a heatmap of two rows or more it
      is a non-negative multiple of 8 no larger than the quotient. */
  lemma StrideRoundsToMultipleOf8(imageHeight: int, heatmapHeight: nat)
    requires heatmapHeight != 1
    ensures var quotient := TruncDiv(imageHeight - 1, heatmapHeight - 1);
      var stride := Stride(imageHeight, heatmapHeight).value;
      && stride % 8 == 0
      && Abs(stride) <= Abs(quotient) < Abs(stride) + 8
      && (quotient >= 0 ==> 0 <= stride <= quotient)
      && (quotient <= 0 ==> quotient <= stride <= 0)
    ensures imageHeight >= 1 && heatmapHeight >= 2 ==>
      0 <= Stride(imageHeight, heatmapHeight).value <= TruncDiv(imageHeight - 1, heatmapHeight - 1)
  {
    var quotient := TruncDiv(imageHeight - 1, heatmapHeight - 1);
    RoundTowardZeroTo8(quotient);
    if imageHeight >= 1 && heatmapHeight >= 2 {
      assert quotient >= 0;
    }
  }

  /** `q - q % 8` with C#'s remainder rounds q toward zero to a multiple of 8. */
  lemma RoundTowardZeroTo8(q: int)
    ensures var r := q - TruncRem(q, 8);
      && r % 8 == 0
      && Abs(r) <= Abs(q) < Abs(r) + 8
      && (q >= 0 ==> 0 <= r <= q)
      && (q <= 0 ==> q <= r <= 0)
  {
    TruncDivision(q, 8);
    var r := q - TruncRem(q, 8);
    assert r == 8 * TruncDiv(q, 8);
  }

  /** A 481-pixel input over a 61-row heatmap gives stride 8. */
  lemma StrideOf481Over61()
    ensures Stride(481, 61) == Ok(8)
  {
  }

  /** With the detector's default 480-pixel input the quotient over a 61-row
      heatmap is 479 / 60 = 7, which rounds down to stride 0; over a 31-row
      heatmap it is 479 / 30 = 15, which rounds to stride 8. */
  lemma StrideOfDefaultInput()
    ensures Stride(480, 61) == Ok(0)
    ensures Stride(480, 31) == Ok(8)
  {
    assert TruncDiv(479, 60) == 7;
    assert TruncDiv(479, 30) == 15;
  }

  // ---------------------------------------------------------------------------
  // Rescaling into frame space
  // ---------------------------------------------------------------------------

  /** The size of the video frame the keypoints are drawn over. */
  datatype FrameSize = FrameSize(width: int, height: int)

  function Min(a: int, b: int): int {
    if a <= b then a else b
  }

  function Max(a: int, b: int): int {
    if a <= b then b else a
  }

  /** Frame and model input both have a positive size. */
  predicate Sized(frame: FrameSize, imageWidth: int, imageHeight: int) {
    frame.width > 0 && frame.height > 0 && imageWidth > 0 && imageHeight > 0
  }

  /** Shorter frame side over shorter model-input side. */
  function Scale(frame: FrameSize, imageWidth: int, imageHeight: int): real
    requires Sized(frame, imageWidth, imageHeight)
  {
    Min(frame.width, frame.height) as real / Min(imageWidth, imageHeight) as real
  }

  /** Longer frame side over shorter frame side. */
  function AdjustedScale(frame: FrameSize): real
    requires frame.width > 0 && frame.height > 0
  {
    Max(frame.width, frame.height) as real / Min(frame.width, frame.height) as real
  }

  /** A model-input coordinate `v` stretched by a frame side over the shorter
      model-input side. */
  function Stretch(v: real, frameSide: int, imageWidth: int, imageHeight: int): real
    requires imageWidth > 0 && imageHeight > 0
  {
    v * (frameSide as real / Min(imageWidth, imageHeight) as real)
  }

  /** A model-input coordinate scaled into the frame: both axes by `scale`, and
      the axis along the longer frame side (x when the frame is wider than it
      is tall, y otherwise) also by `adjustedScale`. Whatever the orientation,
      this stretches each axis by that frame side over the shorter model-input
      side, undoing the square resize done before inference. */
  function ToFrameSpace(xModel: real, yModel: real, frame: FrameSize, imageWidth: int, imageHeight: int): (real, real)
    requires Sized(frame, imageWidth, imageHeight)
  {
    var scale := Scale(frame, imageWidth, imageHeight);
    var adjustedScale := AdjustedScale(frame);
    var xPos := xModel * scale;
    var yPos := yModel * scale;
    if frame.width > frame.height then (xPos * adjustedScale, yPos) else (xPos, yPos * adjustedScale)
  }

  /** Whatever the frame's orientation, ToFrameSpace stretches x by the frame's
      width and y by its height, each over the shorter model-input side. */
  lemma FrameSpaceIsProportional(xModel: real, yModel: real, frame: FrameSize, imageWidth: int, imageHeight: int)
    requires Sized(frame, imageWidth, imageHeight)
    ensures var r := ToFrameSpace(xModel, yModel, frame, imageWidth, imageHeight);
      && r.0 == Stretch(xModel, frame.width, imageWidth, imageHeight)
      && r.1 == Stretch(yModel, frame.height, imageWidth, imageHeight)
  {
    var scale := Scale(frame, imageWidth, imageHeight);
    var adjustedScale := AdjustedScale(frame);
    LongAxisFactor(frame, imageWidth, imageHeight);
    var m := Min(imageWidth, imageHeight) as real;
    if frame.width > frame.height {
      assert scale == frame.height as real / m;
      assert yModel * scale == Stretch(yModel, frame.height, imageWidth, imageHeight);
      assert (xModel * scale) * adjustedScale == Stretch(xModel, frame.width, imageWidth, imageHeight);
    } else {
      assert scale == frame.width as real / m;
      assert xModel * scale == Stretch(xModel, frame.width, imageWidth, imageHeight);
      assert (yModel * scale) * adjustedScale == Stretch(yModel, frame.height, imageWidth, imageHeight);
    }
  }

  /** The two factors applied to the longer frame axis multiply to that side
      over the shorter model-input side. */
  lemma LongAxisFactor(frame: FrameSize, imageWidth: int, imageHeight: int)
    requires Sized(frame, imageWidth, imageHeight)
    ensures var m := Min(imageWidth, imageHeight) as real;
      Scale(frame, imageWidth, imageHeight) * AdjustedScale(frame)
        == Max(frame.width, frame.height) as real / m
  {
    var m := Min(imageWidth, imageHeight) as real;
    var lo := Min(frame.width, frame.height) as real;
    var hi := Max(frame.width, frame.height) as real;
    assert lo > 0.0;
    assert (lo / m) * (hi / lo) == hi / m;
  }

  /** A square frame is not stretched: adjustedScale is 1 and both axes get
      `scale` alone. */
  lemma SquareFrameNotStretched(xModel: real, yModel: real, frame: FrameSize, imageWidth: int, imageHeight: int)
    requires Sized(frame, imageWidth, imageHeight)
    requires frame.width == frame.height
    ensures AdjustedScale(frame) == 1.0
    ensures ToFrameSpace(xModel, yModel, frame, imageWidth, imageHeight).0 == xModel * Scale(frame, imageWidth, imageHeight)
    ensures ToFrameSpace(xModel, yModel, frame, imageWidth, imageHeight).1 == yModel * Scale(frame, imageWidth, imageHeight)
  {
    var side := frame.width as real;
    assert AdjustedScale(frame) == side / side == 1.0;
  }

  /** The grid cell and offset turned back into a model-input coordinate, with
      the vertical axis flipped. */
  function ModelPoint(loc: Location, stride: int, imageHeight: int): (real, real) {
    (loc.x as real * stride as real + loc.offsetX,
     imageHeight as real - (loc.y as real * stride as real + loc.offsetY))
  }

  // ---------------------------------------------------------------------------
  // ProcessResults
  // ---------------------------------------------------------------------------

  /** One entry of the decoded keypoint table: frame position and confidence. */
  datatype Estimate = Estimate(x: real, y: real, confidence: real)

  /** Joint k's estimate: its located confidence at its model point scaled
      into the frame. */
  function EstimateFor(heatmaps: Tensor, offsets: Tensor, k: nat, stride: int,
                       imageWidth: int, imageHeight: int, frame: FrameSize): Estimate
    requires Compatible(heatmaps, offsets) && k < NumKeypoints
    requires Sized(frame, imageWidth, imageHeight)
  {
    var loc := Locate(heatmaps, offsets, k);
    var point := ModelPoint(loc, stride, imageHeight);
    var pos := ToFrameSpace(point.0, point.1, frame, imageWidth, imageHeight);
    Estimate(pos.0, pos.1, loc.confidence)
  }

  /** Joint k's estimate carries its located confidence (never negative) and
      sits at its model point stretched by frame width and height over the
      shorter model-input side. */
  lemma EstimatePlacement(heatmaps: Tensor, offsets: Tensor, k: nat, stride: int,
                          imageWidth: int, imageHeight: int, frame: FrameSize)
    requires Compatible(heatmaps, offsets) && k < NumKeypoints
    requires Sized(frame, imageWidth, imageHeight)
    ensures var e := EstimateFor(heatmaps, offsets, k, stride, imageWidth, imageHeight, frame);
      var loc := Locate(heatmaps, offsets, k);
      var point := ModelPoint(loc, stride, imageHeight);
      && e.confidence == loc.confidence
      && e.confidence >= 0.0
      && e.x == Stretch(point.0, frame.width, imageWidth, imageHeight)
      && e.y == Stretch(point.1, frame.height, imageWidth, imageHeight)
  {
    var point := ModelPoint(Locate(heatmaps, offsets, k), stride, imageHeight);
    FrameSpaceIsProportional(point.0, point.1, frame, imageWidth, imageHeight);
  }

  /** Decode one frame's network output into 17 keypoint estimates. The only
      fault is the stride's division by zero, raised before any keypoint is
      written. */
  function ProcessResults(heatmaps: Tensor, offsets: Tensor, imageWidth: int, imageHeight: int,
                          frame: FrameSize): (r: Result<seq<Estimate>>)
    requires Compatible(heatmaps, offsets)
    requires Sized(frame, imageWidth, imageHeight)
    ensures r.Ok? <==> heatmaps.height != 1
    ensures r.Err? ==> r.fault == DivideByZero
    ensures r.Ok? ==> |r.value| == NumKeypoints
  {
    var stride :- Stride(imageHeight, heatmaps.height);
    Ok(seq(NumKeypoints, k requires 0 <= k < NumKeypoints =>
      EstimateFor(heatmaps, offsets, k, stride, imageWidth, imageHeight, frame)))
  }

  /** Entry k of a successful decode is joint k's estimate at the frame's stride. */
  lemma ProcessResultsEntry(heatmaps: Tensor, offsets: Tensor, imageWidth: int, imageHeight: int,
                            frame: FrameSize, k: nat)
    requires Compatible(heatmaps, offsets)
    requires Sized(frame, imageWidth, imageHeight)
    requires heatmaps.height != 1 && k < NumKeypoints
    ensures ProcessResults(heatmaps, offsets, imageWidth, imageHeight, frame).value[k]
         == EstimateFor(heatmaps, offsets, k, Stride(imageHeight, heatmaps.height).value,
                        imageWidth, imageHeight, frame)
  {
  }

  /** Each decoded keypoint carries the located confidence of its joint (never
      negative) and sits at its model point (gx * stride + ox, imageHeight -
      (gy * stride + oy)) stretched by frame width and height over the shorter
      model-input side. */
  lemma ProcessResultsPlacement(heatmaps: Tensor, offsets: Tensor, imageWidth: int, imageHeight: int,
                                frame: FrameSize, k: nat)
    requires Compatible(heatmaps, offsets)
    requires Sized(frame, imageWidth, imageHeight)
    requires heatmaps.height != 1 && k < NumKeypoints
    ensures var e := ProcessResults(heatmaps, offsets, imageWidth, imageHeight, frame).value[k];
      var loc := Locate(heatmaps, offsets, k);
      var point := ModelPoint(loc, Stride(imageHeight, heatmaps.height).value, imageHeight);
      && e.confidence == loc.confidence
      && e.confidence >= 0.0
      && e.x == Stretch(point.0, frame.width, imageWidth, imageHeight)
      && e.y == Stretch(point.1, frame.height, imageWidth, imageHeight)
  {
    var stride := Stride(imageHeight, heatmaps.height).value;
    ProcessResultsEntry(heatmaps, offsets, imageWidth, imageHeight, frame, k);
    EstimatePlacement(heatmaps, offsets, k, stride, imageWidth, imageHeight, frame);
  }

  /** A joint with no positive heatmap cell decodes to confidence 0 at x = 0 and
      y = imageHeight scaled into the frame. */
  lemma UndetectedJointPlacement(heatmaps: Tensor, offsets: Tensor, imageWidth: int, imageHeight: int,
                                 frame: FrameSize, k: nat)
    requires Compatible(heatmaps, offsets)
    requires Sized(frame, imageWidth, imageHeight)
    requires heatmaps.height != 1 && k < NumKeypoints
    requires forall y: nat, x: nat :: y < heatmaps.height && x < heatmaps.width ==> heatmaps.At(y, x, k) <= 0.0
    ensures var e := ProcessResults(heatmaps, offsets, imageWidth, imageHeight, frame).value[k];
      && e.confidence == 0.0
      && e.x == 0.0
      && e.y == Stretch(imageHeight as real, frame.height, imageWidth, imageHeight)
  {
    LocateNoDetection(heatmaps, offsets, k);
    ProcessResultsPlacement(heatmaps, offsets, imageWidth, imageHeight, frame, k);
    assert ModelPoint(NoDetection, Stride(imageHeight, heatmaps.height).value, imageHeight) == (0.0, imageHeight as real);
  }

  /** With a square model input, a joint with no positive heatmap cell lands at
      x = 0 and y = the frame's height, the top-left corner of the frame as the
      overlay's y-up camera shows it. */
  lemma UndetectedJointOnSquareInput(heatmaps: Tensor, offsets: Tensor, side: int, frame: FrameSize, k: nat)
    requires Compatible(heatmaps, offsets)
    requires Sized(frame, side, side)
    requires heatmaps.height != 1 && k < NumKeypoints
    requires forall y: nat, x: nat :: y < heatmaps.height && x < heatmaps.width ==> heatmaps.At(y, x, k) <= 0.0
    ensures ProcessResults(heatmaps, offsets, side, side, frame).value[k] == Estimate(0.0, frame.height as real, 0.0)
  {
    UndetectedJointPlacement(heatmaps, offsets, side, side, frame, k);
    SideCancels(side, frame.height);
  }

  /** Stretching a square input's side gives the frame side. */
  lemma SideCancels(side: int, length: int)
    requires side > 0
    ensures Stretch(side as real, length, side, side) == length as real
  {
    var d := side as real;
    assert d * (length as real / d) == length as real;
  }

  // ---------------------------------------------------------------------------
  // DrawSkeleton (the detector's): confidence gate and marker placement
  // ---------------------------------------------------------------------------

  /** The confidence a keypoint needs: `minConfidence` percent. */
  function Threshold(minConfidence: int): (r: real)
    ensures r * 100.0 == minConfidence as real
  {
    minConfidence as real / 100.0
  }

  /** The markers after a gate pass, and whether the pass stopped on a marker
      array shorter than the 17 joints (an index fault after the markers that
      exist were updated). */
  datatype Placement = Placement(objects: seq<KeypointObject>, fault: bool)

  /** Move marker k to (x_k, y_k, -1) and make it active iff its confidence is
      at least `minConfidence / 100`. Markers past the 17th are not touched. */
  function PlaceKeypoints(locations: seq<Estimate>, minConfidence: int, keypoints: seq<KeypointObject>): (r: Placement)
    requires |locations| == NumKeypoints
    ensures |r.objects| == |keypoints|
    ensures r.fault <==> |keypoints| < NumKeypoints
    ensures forall k :: 0 <= k < |keypoints| && k < NumKeypoints ==>
      && (r.objects[k].active <==> locations[k].confidence >= minConfidence as real / 100.0)
      && r.objects[k].position == Vec3(locations[k].x, locations[k].y, -1.0)
    ensures forall k :: NumKeypoints <= k < |keypoints| ==> r.objects[k] == keypoints[k]
  {
    var objects := seq(|keypoints|, k requires 0 <= k < |keypoints| =>
      if k < NumKeypoints then
        KeypointObject(locations[k].confidence >= Threshold(minConfidence),
                       Vec3(locations[k].x, locations[k].y, -1.0))
      else keypoints[k]);
    Placement(objects, |keypoints| < NumKeypoints)
  }

  /** Raising the threshold can only switch markers off, and never moves them. */
  lemma GateMonotone(locations: seq<Estimate>, low: int, high: int, keypoints: seq<KeypointObject>, k: nat)
    requires |locations| == NumKeypoints && low <= high && k < |keypoints|
    ensures PlaceKeypoints(locations, high, keypoints).objects[k].active ==>
            PlaceKeypoints(locations, low, keypoints).objects[k].active
    ensures PlaceKeypoints(locations, high, keypoints).objects[k].position
            == PlaceKeypoints(locations, low, keypoints).objects[k].position
  {
    if k < NumKeypoints {
      assert Threshold(low) <= Threshold(high);
    }
  }

  /** A gate pass depends only on the estimates: repeating it changes nothing. */
  lemma GateIdempotent(locations: seq<Estimate>, minConfidence: int, keypoints: seq<KeypointObject>)
    requires |locations| == NumKeypoints
    ensures var once := PlaceKeypoints(locations, minConfidence, keypoints);
      PlaceKeypoints(locations, minConfidence, once.objects) == once
  {
    var once := PlaceKeypoints(locations, minConfidence, keypoints);
    var twice := PlaceKeypoints(locations, minConfidence, once.objects);
    assert twice.objects == once.objects;
  }

  /** With a positive threshold, a joint of confidence 0 stays inactive. */
  lemma ZeroConfidenceInactive(locations: seq<Estimate>, minConfidence: int, keypoints: seq<KeypointObject>, k: nat)
    requires |locations| == NumKeypoints && k < |keypoints| && k < NumKeypoints
    requires locations[k].confidence == 0.0
    ensures !PlaceKeypoints(locations, minConfidence, keypoints).objects[k].active <==> minConfidence > 0
  {
  }
}

=== FILE: scene.dfy ===
/** The engine-side objects the core reads and writes, reduced to plain data. */
module Scene {

  /** A position in the scene (a `Vector3`). */
  datatype Vec3 = Vec3(x: real, y: real, z: real)

  /** A keypoint marker object: whether it is active and where its transform sits.
      Parents in the scene hierarchy are taken to be active, so "active in the
      hierarchy" and "active itself" coincide. */
  datatype KeypointObject = KeypointObject(active: bool, position: Vec3)
}

=== FILE: skeleton_renderer.dfy ===
/** The skeleton overlay: a fixed table of bones, each joining two keypoints,
    and one line per bone that every frame is shown between its two keypoints
    when both are active and hidden otherwise. */
module SkeletonRenderer {
  import opened Faults
  import opened Scene

  /** Keypoint objects the bone table needs: its largest joint index is 16.
      The renderer has no joint count of its own (it only sees the length of
      its keypoint array), so this is the table's bound, which happens to
      equal the detector's 17 joints. */
  const TableJoints: nat := 17

  /** Slots the bone table fills: 0 .. 17. */
  const TableBones: nat := 18

  /** Width of every bone line. */
  const LineWidth: real := 5.0

  /** Line colours; each body region gets its own. */
  datatype Color = Red | Magenta | Blue | Green

  /** A bone: the joint pair of a slot together with its line's width and colour. */
  datatype Bone = Bone(start: nat, end: nat, width: real, color: Color)

  /** A pair slot: never assigned (a null entry of the pair array) or holding a bone. */
  datatype Slot = Unset | Pair(bone: Bone)

  /** What the scene shows of a line: whether it is drawn, and its two endpoints. */
  datatype Line = Line(visible: bool, start: Vec3, end: Vec3)

  /** A line as the engine creates it: active, from the origin one unit along z. */
  const FreshLine := Line(true, Vec3(0.0, 0.0, 0.0), Vec3(0.0, 0.0, 1.0))

  /** The content of a line slot that has no line object behind it. */
  const NoLine := Line(false, Vec3(0.0, 0.0, 0.0), Vec3(0.0, 0.0, 0.0))

  /** The renderer's state: how many keypoint objects it was given, the bone
      table and the line of each slot. */
  datatype Skeleton = Skeleton(keypointCount: nat, bones: seq<Slot>, lines: seq<Line>) {

    /** One line per slot, and every bone joins two existing keypoints. */
    predicate Valid() {
      && |bones| == |lines|
      && forall i :: 0 <= i < |bones| && bones[i].Pair? ==>
           bones[i].bone.start < keypointCount && bones[i].bone.end < keypointCount
    }
  }

  // ---------------------------------------------------------------------------
  // Initialisation
  // ---------------------------------------------------------------------------

  /** One InitializeLine call of the table: slot, joint pair and colour. */
  datatype LineSpec = LineSpec(pairIndex: nat, startIndex: nat, endIndex: nat, color: Color)

  /** The bone table as the renderer sets it up, in call order: face (red),
      torso (magenta), arms (blue) and legs (green). */
  const SkeletonTable: seq<LineSpec> := [
    LineSpec(0, 0, 1, Red),         // nose - left eye
    LineSpec(1, 0, 2, Red),         // nose - right eye
    LineSpec(2, 1, 3, Red),         // left eye - left ear
    LineSpec(3, 2, 4, Red),         // right eye - right ear
    LineSpec(4, 5, 6, Magenta),     // left shoulder - right shoulder
    LineSpec(5, 5, 11, Magenta),    // left shoulder - left hip
    LineSpec(6, 6, 12, Magenta),    // right shoulder - right hip
    LineSpec(7, 5, 12, Magenta),    // left shoulder - right hip
    LineSpec(8, 6, 11, Magenta),    // right shoulder - left hip
    LineSpec(9, 11, 12, Magenta),   // left hip - right hip
    LineSpec(10, 5, 7, Blue),       // left upper arm
    LineSpec(11, 7, 9, Blue),       // left forearm
    LineSpec(12, 6, 8, Blue),       // right upper arm
    LineSpec(13, 8, 10, Blue),      // right forearm
    LineSpec(14, 11, 13, Green),    // left thigh
    LineSpec(15, 13, 15, Green),    // left shin
    LineSpec(16, 12, 14, Green),    // right thigh
    LineSpec(17, 14, 16, Green)     // right shin
  ]

  /** The colour of slot k, by body region. */
  function GroupColor(k: nat): Color {
    if k < 4 then Red
    else if k < 10 then Magenta
    else if k < 14 then Blue
    else Green
  }

  function BoneOf(spec: LineSpec): Bone {
    Bone(spec.startIndex, spec.endIndex, LineWidth, spec.color)
  }

  /** The call can be made without an index fault: the slot exists and both
      joints have a keypoint object. */
  predicate Fits(keypointCount: nat, slots: nat, spec: LineSpec) {
    spec.pairIndex < slots && spec.startIndex < keypointCount && spec.endIndex < keypointCount
  }

  /** Record the joint pair of a slot and create its line with the given width
      and colour; the new line is active and spans the engine's default
      endpoints. A slot or joint past the end of its array faults. */
  function InitializeLine(sk: Skeleton, pairIndex: nat, startIndex: nat, endIndex: nat,
                          width: real, color: Color): (r: Result<Skeleton>)
    requires |sk.bones| == |sk.lines|
    ensures r.Ok? <==> Fits(sk.keypointCount, |sk.bones|, LineSpec(pairIndex, startIndex, endIndex, color))
    ensures r.Err? ==> r.fault == IndexOutOfRange
    ensures r.Ok? ==> && r.value.keypointCount == sk.keypointCount
                      && |r.value.bones| == |r.value.lines| == |sk.bones|
                      && r.value.bones[pairIndex] == Pair(Bone(startIndex, endIndex, width, color))
                      && r.value.lines[pairIndex] == FreshLine
                      && (forall p :: 0 <= p < |sk.bones| && p != pairIndex ==>
                            r.value.bones[p] == sk.bones[p] && r.value.lines[p] == sk.lines[p])
  {
    if pairIndex >= |sk.bones| || startIndex >= sk.keypointCount || endIndex >= sk.keypointCount then
      Err(IndexOutOfRange)
    else
      Ok(sk.(bones := sk.bones[pairIndex := Pair(Bone(startIndex, endIndex, width, color))],
             lines := sk.lines[pairIndex := FreshLine]))
  }

  /** The calls of `specs`, in order, stopping at the first fault. */
  function InitializeLines(sk: Skeleton, specs: seq<LineSpec>): (r: Result<Skeleton>)
    requires |sk.bones| == |sk.lines|
    ensures r.Err? ==> r.fault == IndexOutOfRange
    ensures r.Ok? ==> && r.value.keypointCount == sk.keypointCount
                      && |r.value.bones| == |r.value.lines| == |sk.bones|
    decreases |specs|
  {
    if |specs| == 0 then Ok(sk)
    else
      var next :- InitializeLine(sk, specs[0].pairIndex, specs[0].startIndex, specs[0].endIndex,
                                 LineWidth, specs[0].color);
      InitializeLines(next, specs[1..])
  }

  /** No call after call j names the same slot. */
  predicate LastWrite(specs: seq<LineSpec>, j: nat)
    requires j < |specs|
  {
    forall j' :: j < j' < |specs| ==> specs[j'].pairIndex != specs[j].pairIndex
  }

  /** A run of InitializeLine calls succeeds iff every call fits; the slot of a
      call no later call overwrites holds that call's bone, and a slot no call
      names is left as it was. */
  lemma {:induction false} InitializeLinesSpec(sk: Skeleton, specs: seq<LineSpec>)
    requires |sk.bones| == |sk.lines|
    ensures var r := InitializeLines(sk, specs);
      && (r.Ok? <==> forall j :: 0 <= j < |specs| ==> Fits(sk.keypointCount, |sk.bones|, specs[j]))
      && (r.Err? ==> r.fault == IndexOutOfRange)
      && (r.Ok? ==>
            && r.value.keypointCount == sk.keypointCount
            && |r.value.bones| == |r.value.lines| == |sk.bones|
            && (forall j :: 0 <= j < |specs| && LastWrite(specs, j) ==>
                  && r.value.bones[specs[j].pairIndex] == Pair(BoneOf(specs[j]))
                  && r.value.lines[specs[j].pairIndex] == FreshLine)
            && (forall p :: 0 <= p < |sk.bones| && (forall j :: 0 <= j < |specs| ==> specs[j].pairIndex != p) ==>
                  r.value.bones[p] == sk.bones[p] && r.value.lines[p] == sk.lines[p]))
    decreases |specs|
  {
    if |specs| > 0 {
      var s := specs[0];
      var step := InitializeLine(sk, s.pairIndex, s.startIndex, s.endIndex, LineWidth, s.color);
      if step.Ok? {
        var next := step.value;
        var rest := specs[1..];
        InitializeLinesSpec(next, rest);
        assert forall j :: 1 <= j < |specs| ==> specs[j] == rest[j - 1];
        var r := InitializeLines(sk, specs);
        assert r == InitializeLines(next, rest);
        if r.Ok? {
          forall j | 0 <= j < |specs| && LastWrite(specs, j)
            ensures r.value.bones[specs[j].pairIndex] == Pair(BoneOf(specs[j]))
            ensures r.value.lines[specs[j].pairIndex] == FreshLine
          {
            if j == 0 {
              assert forall j' :: 0 <= j' < |rest| ==> rest[j'].pairIndex != s.pairIndex;
            } else {
              assert forall j' :: j - 1 < j' < |rest| ==> rest[j'].pairIndex != rest[j - 1].pairIndex;
            }
          }
          forall p | 0 <= p < |sk.bones| && (forall j :: 0 <= j < |specs| ==> specs[j].pairIndex != p)
            ensures r.value.bones[p] == sk.bones[p] && r.value.lines[p] == sk.lines[p]
          {
            assert forall j :: 0 <= j < |rest| ==> rest[j].pairIndex != p;
            assert s.pairIndex != p;
          }
        }
      }
    }
  }

  /** Facts about the table itself: 18 calls, call k fills slot k, every joint
      index is below 17, and each call's colour is its slot's region colour. */
  lemma TableShape()
    ensures |SkeletonTable| == TableBones
    ensures forall k :: 0 <= k < TableBones ==>
      && SkeletonTable[k].pairIndex == k
      && SkeletonTable[k].startIndex < TableJoints
      && SkeletonTable[k].endIndex < TableJoints
      && SkeletonTable[k].color == GroupColor(k)
  {
  }

  /** The renderer's arrays right after sizing: keypointCount + 1 slots, none set. */
  function Allocated(keypointCount: nat): Skeleton {
    Skeleton(keypointCount, seq(keypointCount + 1, _ => Unset), seq(keypointCount + 1, _ => NoLine))
  }

  /** Set up the renderer for `keypointCount` keypoint objects: keypointCount + 1
      slots, filled by the table. Too few keypoint objects make a table call
      fault; with more than 17 the slots past 17 stay unset. */
  function Start(keypointCount: nat): (r: Result<Skeleton>)
    ensures r.Ok? <==> keypointCount >= TableJoints
    ensures r.Err? ==> r.fault == IndexOutOfRange
    ensures r.Ok? ==>
      && r.value.keypointCount == keypointCount
      && |r.value.bones| == |r.value.lines| == keypointCount + 1
      && r.value.Valid()
      && (forall k :: 0 <= k < TableBones ==>
            && r.value.bones[k] == Pair(BoneOf(SkeletonTable[k]))
            && r.value.bones[k].bone.width == LineWidth
            && r.value.bones[k].bone.color == GroupColor(k)
            && r.value.bones[k].bone.start < TableJoints
            && r.value.bones[k].bone.end < TableJoints)
      && (forall k :: TableBones <= k < |r.value.bones| ==> r.value.bones[k] == Unset)
      && (forall k :: 0 <= k < TableBones ==> r.value.lines[k] == FreshLine)
      && (forall k :: TableBones <= k < |r.value.lines| ==> r.value.lines[k] == NoLine)
  {
    var r := InitializeLines(Allocated(keypointCount), SkeletonTable);
    if keypointCount < TableJoints then
      StartFaults(keypointCount);
      r
    else
      StartShape(keypointCount);
      TableSlotsShape(r.value);
      r
  }

  /** With fewer than 17 keypoint objects some table call names a slot past
      the end of the pair array or a joint past the end of the keypoint array
      and faults (at the latest the last one, which names slot 17 and joint
      16). */
  lemma StartFaults(keypointCount: nat)
    requires keypointCount < TableJoints
    ensures InitializeLines(Allocated(keypointCount), SkeletonTable) == Err(IndexOutOfRange)
  {
    TableShape();
    InitializeLinesSpec(Allocated(keypointCount), SkeletonTable);
    assert !Fits(keypointCount, keypointCount + 1, SkeletonTable[17]);
  }

  /** With 17 or more keypoint objects every table call fits. */
  lemma StartSucceeds(keypointCount: nat)
    requires keypointCount >= TableJoints
    ensures var r := InitializeLines(Allocated(keypointCount), SkeletonTable);
      && r.Ok?
      && r.value.keypointCount == keypointCount
      && |r.value.bones| == |r.value.lines| == keypointCount + 1
  {
    TableShape();
    InitializeLinesSpec(Allocated(keypointCount), SkeletonTable);
    forall j | 0 <= j < |SkeletonTable|
      ensures Fits(keypointCount, keypointCount + 1, SkeletonTable[j])
    {
    }
  }

  /** A successful run of 18 calls where call k names slot k: slot k < 18
      holds call k's bone and a fresh line, and every later slot is left as
      it was. */
  lemma {:induction false} TableRunShape(sk: Skeleton, specs: seq<LineSpec>, r: Result<Skeleton>)
    requires |sk.bones| == |sk.lines| >= TableBones
    requires |specs| == TableBones
    requires forall j :: 0 <= j < |specs| ==> specs[j].pairIndex == j
    requires r == InitializeLines(sk, specs) && r.Ok?
    ensures r.value.keypointCount == sk.keypointCount
    ensures |r.value.bones| == |r.value.lines| == |sk.bones|
    ensures forall k :: 0 <= k < TableBones ==>
      r.value.bones[k] == Pair(BoneOf(specs[k])) && r.value.lines[k] == FreshLine
    ensures forall k :: TableBones <= k < |r.value.bones| ==>
      r.value.bones[k] == sk.bones[k] && r.value.lines[k] == sk.lines[k]
  {
    InitializeLinesSpec(sk, specs);
    forall k | 0 <= k < TableBones
      ensures r.value.bones[k] == Pair(BoneOf(specs[k])) && r.value.lines[k] == FreshLine
    {
      assert LastWrite(specs, k);
    }
    forall k | TableBones <= k < |r.value.bones|
      ensures r.value.bones[k] == sk.bones[k] && r.value.lines[k] == sk.lines[k]
    {
      assert forall j :: 0 <= j < |specs| ==> specs[j].pairIndex != k;
    }
  }

  /** The successful start, slot by slot. */
  lemma StartShape(keypointCount: nat)
    requires keypointCount >= TableJoints
    ensures var r := InitializeLines(Allocated(keypointCount), SkeletonTable);
      && r.Ok?
      && r.value.keypointCount == keypointCount
      && |r.value.bones| == |r.value.lines| == keypointCount + 1
      && (forall k :: 0 <= k < TableBones ==> r.value.bones[k] == Pair(BoneOf(SkeletonTable[k])))
      && (forall k :: TableBones <= k < |r.value.bones| ==> r.value.bones[k] == Unset)
      && (forall k :: 0 <= k < TableBones ==> r.value.lines[k] == FreshLine)
      && (forall k :: TableBones <= k < |r.value.lines| ==> r.value.lines[k] == NoLine)
  {
    var r := InitializeLines(Allocated(keypointCount), SkeletonTable);
    StartSucceeds(keypointCount);
    TableShape();
    TableRunShape(Allocated(keypointCount), SkeletonTable, r);
  }

  /** A skeleton whose first 18 slots hold the table's bones and whose other
      slots are unset is well formed, with the table's widths and colours. */
  lemma TableSlotsShape(sk: Skeleton)
    requires sk.keypointCount >= TableJoints
    requires |sk.bones| == |sk.lines| == sk.keypointCount + 1
    requires forall k :: 0 <= k < TableBones ==> sk.bones[k] == Pair(BoneOf(SkeletonTable[k]))
    requires forall k :: TableBones <= k < |sk.bones| ==> sk.bones[k] == Unset
    ensures forall k :: 0 <= k < TableBones ==>
      && sk.bones[k].bone.width == LineWidth
      && sk.bones[k].bone.color == GroupColor(k)
      && sk.bones[k].bone.start < TableJoints
      && sk.bones[k].bone.end < TableJoints
    ensures sk.Valid()
  {
    TableShape();
    forall k | 0 <= k < TableBones
      ensures && sk.bones[k].bone.width == LineWidth
              && sk.bones[k].bone.color == GroupColor(k)
              && sk.bones[k].bone.start < TableJoints
              && sk.bones[k].bone.end < TableJoints
    {
      assert sk.bones[k] == Pair(BoneOf(SkeletonTable[k]));
    }
    assert forall i :: 0 <= i < |sk.bones| && sk.bones[i].Pair? ==> i < TableBones;
  }

  // ---------------------------------------------------------------------------
  // Rendering
  // ---------------------------------------------------------------------------

  /** The first unset slot, or |bones| when every slot holds a bone: the pass
      stops there on a null pair. */
  function FirstUnset(bones: seq<Slot>): (r: nat)
    ensures r <= |bones|
    ensures forall j :: 0 <= j < r ==> bones[j].Pair?
    ensures r < |bones| ==> bones[r].Unset?
  {
    if |bones| == 0 || bones[0].Unset? then 0 else 1 + FirstUnset(bones[1..])
  }

  /** One bone's update: shown between its keypoints when both are active,
      otherwise hidden with its endpoints kept. */
  function RenderLine(bone: Bone, keypoints: seq<KeypointObject>, line: Line): (r: Line)
    requires bone.start < |keypoints| && bone.end < |keypoints|
    ensures r.visible <==> keypoints[bone.start].active && keypoints[bone.end].active
    ensures r.visible ==> r.start == keypoints[bone.start].position && r.end == keypoints[bone.end].position
    ensures !r.visible ==> r.start == line.start && r.end == line.end
  {
    var s := keypoints[bone.start];
    var e := keypoints[bone.end];
    if s.active && e.active then Line(true, s.position, e.position) else line.(visible := false)
  }

  /** The state after a render pass, and whether the pass hit an unset slot
      (a null reference after the slots before it were updated). */
  datatype RenderResult = RenderResult(skeleton: Skeleton, fault: bool)

  /** One render pass over the slots in order. */
  function Render(sk: Skeleton, keypoints: seq<KeypointObject>): (r: RenderResult)
    requires sk.Valid() && |keypoints| == sk.keypointCount
    ensures r.skeleton.keypointCount == sk.keypointCount && r.skeleton.bones == sk.bones
    ensures r.skeleton.Valid()
    ensures r.fault <==> exists i :: 0 <= i < |sk.bones| && sk.bones[i].Unset?
    ensures forall i :: 0 <= i < |sk.lines| && i < FirstUnset(sk.bones) ==>
      var b := sk.bones[i].bone;
      var line := r.skeleton.lines[i];
      && (line.visible <==> keypoints[b.start].active && keypoints[b.end].active)
      && (line.visible ==> line.start == keypoints[b.start].position && line.end == keypoints[b.end].position)
      && (!line.visible ==> line.start == sk.lines[i].start && line.end == sk.lines[i].end)
    ensures forall i :: FirstUnset(sk.bones) <= i < |sk.lines| ==> r.skeleton.lines[i] == sk.lines[i]
  {
    var stop := FirstUnset(sk.bones);
    var lines := seq(|sk.lines|, i requires 0 <= i < |sk.lines| =>
      if i < stop then RenderLine(sk.bones[i].bone, keypoints, sk.lines[i]) else sk.lines[i]);
    RenderResult(sk.(lines := lines), stop < |sk.bones|)
  }

  /** The render pass as the renderer runs it: a loop over the slots that
      updates line i from pair i only and stops at the first unset slot. */
  method RenderSkeleton(sk: Skeleton, keypoints: seq<KeypointObject>) returns (lines: seq<Line>, fault: bool)
    requires sk.Valid() && |keypoints| == sk.keypointCount
    ensures Render(sk, keypoints) == RenderResult(sk.(lines := lines), fault)
  {
    lines := sk.lines;
    fault := false;
    var i := 0;
    while i < |sk.bones|
      invariant i <= FirstUnset(sk.bones)
      invariant |lines| == |sk.lines|
      invariant forall j :: 0 <= j < i ==> lines[j] == RenderLine(sk.bones[j].bone, keypoints, sk.lines[j])
      invariant forall j :: i <= j < |lines| ==> lines[j] == sk.lines[j]
    {
      if sk.bones[i].Unset? {
        fault := true;
        break;
      }
      var bone := sk.bones[i].bone;
      var startingKeyPoint := keypoints[bone.start];
      var endingKeyPoint := keypoints[bone.end];
      if startingKeyPoint.active && endingKeyPoint.active {
        lines := lines[i := Line(true, startingKeyPoint.position, endingKeyPoint.position)];
      } else {
        lines := lines[i := lines[i].(visible := false)];
      }
      i := i + 1;
    }
    assert fault <==> FirstUnset(sk.bones) < |sk.bones|;
    assert lines == Render(sk, keypoints).skeleton.lines;
  }

  /** A render pass depends only on the keypoints and the bone table: running
      it again on its own output changes nothing. */
  lemma RenderIdempotent(sk: Skeleton, keypoints: seq<KeypointObject>)
    requires sk.Valid() && |keypoints| == sk.keypointCount
    ensures var once := Render(sk, keypoints);
      Render(once.skeleton, keypoints) == once
  {
    var once := Render(sk, keypoints);
    var twice := Render(once.skeleton, keypoints);
    assert twice.skeleton.lines == once.skeleton.lines;
  }

  /** Before any unset slot, what a pass shows does not depend on the lines it
      starts from: two states with the same bones agree on every line's
      visibility and on the endpoints of every visible line. */
  lemma RenderForgetsPreviousFrame(a: Skeleton, b: Skeleton, keypoints: seq<KeypointObject>, i: nat)
    requires a.Valid() && b.Valid() && a.bones == b.bones && a.keypointCount == b.keypointCount
    requires |keypoints| == a.keypointCount && i < FirstUnset(a.bones)
    ensures var la := Render(a, keypoints).skeleton.lines[i];
      var lb := Render(b, keypoints).skeleton.lines[i];
      la.visible == lb.visible && (la.visible ==> la == lb)
  {
  }

  /** A renderer started with exactly 17 keypoint objects has its 18 table
      slots and nothing else, so a pass never faults. */
  lemma StartedRendererNeverFaults(keypoints: seq<KeypointObject>)
    requires |keypoints| == TableJoints
    ensures Start(TableJoints).Ok?
    ensures |Start(TableJoints).value.bones| == TableBones
    ensures !Render(Start(TableJoints).value, keypoints).fault
    ensures FirstUnset(Start(TableJoints).value.bones) == TableBones
  {
    var sk := Start(TableJoints).value;
    forall i | 0 <= i < |sk.bones|
      ensures sk.bones[i].Pair?
    {
      assert sk.bones[i] == Pair(BoneOf(SkeletonTable[i]));
    }
  }
}
